=== FILE: README.md ===
# Fill_BLACK in Dafny

A model of `Fill_BLACK`, an ImageJ plugin filter that paints an image black.
The model has three parts, one module each:

- `PixelBuffers` (`pixel_buffers.dfy`) holds the pixel arrays of the four supported
  image types: 8-bit, 16-bit and 32-bit float grayscale, and packed 24-bit RGB. It also
  holds the routines that set the first `width*height` pixels of such an array to black.
  The three grayscale routines share one loop, `ZeroFill`. The RGB routine makes three
  fresh channel planes, blackens them with the 8-bit routine and packs them back into
  the image's array with `SetRGB`.
- `Dispatch` (`dispatch.dfy`) picks the routine from the image's pixel-type tag, for one
  slice (`process(ImageProcessor)`) or for every slice of the stack, slice 1 first
  (`process(ImagePlus)`). An unhandled tag fails with the source's exception message
  before any pixel is written.
- `FillBlack` (`fill_black.dfy`) is the filter's state and entry points. `Setup` answers
  `Done` for "about". For any other argument it stores the image, declares all four pixel
  types and switches to current-slice mode only for "CURRENT_SLICE". `Run` blackens the
  whole stack or only the slice it is handed, depending on the mode.

Arrays are immutable sequences. Each in-place routine is a method that returns the
updated sequence, and the loop invariants say "prefix black, suffix untouched". The
plugin's fields `width`, `height`, `type` and `nSlices` become arguments. The stored
image and the slice flag become a `Plugin` value that `Setup` returns and `Run` takes.
Every routine has a reference definition as its partner: `Zeroed` for one array and
`Blackened` for one slice. The lemmas prove that each reference is uniquely
characterised, idempotent and the identity on an already-black buffer.

Three behaviours of the code worth stating:
- A non-"about" `setup` that is not "CURRENT_SLICE" leaves the slice mode as it was. It
  does not reset the mode to all-slices. On a freshly constructed filter this gives what
  the plugin's about text says (Fill_BLACK.java:155-156): "ALL_SLICES" or no option
  means all slices (`FillBlack.SetupModeFromFresh`).
- `run` reads `type` and `nSlices` from the image stored by `setup`. After "about" no
  image is stored, so `run` would dereference null. This is modelled as
  `Failure(NoImage)`, not as a precondition.
- The two dispatches throw with different messages: "image type not supported" for the
  whole stack and "not supported" for a single slice. Both messages are kept.

## Model

| member | source | states |
|---|---|---|
| `PixelBuffers.Zeroed` | src/main/java/com/pthci/imagej/Fill_BLACK.java:106-110 | reference for one zero-fill: the same length, `zero` below `count` and the input from `count` on |
| `PixelBuffers.ZeroedUnique` | src/main/java/com/pthci/imagej/Fill_BLACK.java:106-128 | any array that is `zero` below `count` and equal to the input beyond it is the zero-filled array, so "prefix black, suffix untouched" fully determines the result |
| `PixelBuffers.ZeroedIdempotent` | src/main/java/com/pthci/imagej/Fill_BLACK.java:106-110 | zero-filling an already zero-filled array gives the same array |
| `PixelBuffers.ZeroedKeepsBlackPrefix` | src/main/java/com/pthci/imagej/Fill_BLACK.java:106-110 | an array whose first `width*height` elements are already zero is unchanged; with an empty area (`count == 0`) every array is unchanged |
| `PixelBuffers.ZeroFill` | src/main/java/com/pthci/imagej/Fill_BLACK.java:107-109 | the `for (pixelPos = 0; pixelPos < width*height; pixelPos++)` loop writes `zero` at every index below the bound and leaves every later index as it was |
| `PixelBuffers.FillGray8` | src/main/java/com/pthci/imagej/Fill_BLACK.java:105-110 | GRAY8: each byte below `width*height` becomes 0 and the rest are kept; requires `width*height` to fit in `int` and in the array |
| `PixelBuffers.FillGray16` | src/main/java/com/pthci/imagej/Fill_BLACK.java:114-119 | GRAY16: each short below `width*height` becomes 0 and the rest are kept; same precondition |
| `PixelBuffers.FillGray32` | src/main/java/com/pthci/imagej/Fill_BLACK.java:123-128 | GRAY32: each float below `width*height` becomes +0.0 and the rest are kept; same precondition |
| `PixelBuffers.Pack` | src/main/java/com/pthci/imagej/Fill_BLACK.java:142 | a pixel packed from channels r, g, b (red in bits 16-23, green in 8-15, blue in 0-7) gives back its three channels and sets no bit above 23 |
| `PixelBuffers.PackIsBlackIff` | src/main/java/com/pthci/imagej/Fill_BLACK.java:142 | a packed pixel is 0 exactly when all three channels are 0 |
| `PixelBuffers.PackOfChannels` | src/main/java/com/pthci/imagej/Fill_BLACK.java:142 | every 24-bit colour word is the packing of its own channels (the inverse direction of `Pack`) |
| `PixelBuffers.SetRGB` | src/main/java/com/pthci/imagej/Fill_BLACK.java:142 | `cp.setRGB(R, G, B)` on the wrapped array: the pixel at each index below the plane length has the channels `R[i]`, `G[i]`, `B[i]`, and later pixels are kept |
| `PixelBuffers.FillRGB` | src/main/java/com/pthci/imagej/Fill_BLACK.java:132-143 | COLOR_RGB: the three fresh planes are blackened and recombined, so every packed pixel below `width*height` has zero red, green and blue and is 0, and the rest are kept |
| `Dispatch.Blackened` | src/main/java/com/pthci/imagej/Fill_BLACK.java:105-143 | reference for one slice of any supported element type: black below `count`, and the same kind, length and contents from `count` on |
| `Dispatch.BlackenedUnique` | src/main/java/com/pthci/imagej/Fill_BLACK.java:105-143 | a slice that is black below `count` and unchanged beyond it is the blackened slice |
| `Dispatch.BlackenedIdempotent` | src/main/java/com/pthci/imagej/Fill_BLACK.java:105-143 | blackening a slice twice is the same as blackening it once, for every element type |
| `Dispatch.BlackenedKeepsBlack` | src/main/java/com/pthci/imagej/Fill_BLACK.java:105-143 | a slice that is already black is left exactly as it is |
| `Dispatch.FillSlice` | src/main/java/com/pthci/imagej/Fill_BLACK.java:94-97 | the routine chosen for a supported tag keeps the array's element type and blackens the slice |
| `Dispatch.ProcessSlice` | src/main/java/com/pthci/imagej/Fill_BLACK.java:93-101 | `process(ImageProcessor)` fails with "not supported" exactly for an unhandled tag, and otherwise returns the blackened slice |
| `Dispatch.SliceNumbers` | src/main/java/com/pthci/imagej/Fill_BLACK.java:79-84 | the loop `for (i = 1; i <= nSlices; i++)` visits slice numbers `1 .. n`: the k-th visit is slice k+1 |
| `Dispatch.SliceNumbersOnceEachInOrder` | src/main/java/com/pthci/imagej/Fill_BLACK.java:81-84 | the visiting order is strictly increasing and contains each slice `1 .. n` and no other |
| `Dispatch.ProcessStack` | src/main/java/com/pthci/imagej/Fill_BLACK.java:78-88 | `process(ImagePlus)` fails with "image type not supported" exactly for an unhandled tag and then visits no slice; otherwise every slice is blackened, the slice count is kept and the slices are visited as `1 .. nSlices` |
| `FillBlack.Setup` | src/main/java/com/pthci/imagej/Fill_BLACK.java:32-43 | "about" answers `Done` and leaves the filter unchanged; any other argument stores the image and accepts DOES_8G, DOES_16, DOES_32 and DOES_RGB; "CURRENT_SLICE" selects current-slice mode, and no other argument changes the mode |
| `FillBlack.SetupAcceptsEveryType` | src/main/java/com/pthci/imagej/Fill_BLACK.java:41-42 | a filter that accepts declares every pixel-type capability; a corollary of `Setup`'s contract, kept to spell out the flag set |
| `FillBlack.SetupModeFromFresh` | src/main/java/com/pthci/imagej/Fill_BLACK.java:24-40 | on a fresh filter the mode is current-slice if and only if the argument is "CURRENT_SLICE"; "ALL_SLICES" and "" give all-slices |
| `FillBlack.Run` | src/main/java/com/pthci/imagej/Fill_BLACK.java:47-59 | with no stored image it fails; it fails exactly for an unhandled tag, with the message of the dispatch the mode selects; in all-slices mode every slice is blackened; in current-slice mode the passed slice is blackened and every other slice is unchanged |
| `FillBlack.Invoke` | src/main/java/com/pthci/imagej/Fill_BLACK.java:33-59 | a host invocation of setup then run on a fresh filter: "about" (and only "about") answers `Done`, and then nothing runs; otherwise the run fails exactly when no image was given or its type is unhandled; "CURRENT_SLICE" blackens the passed slice and keeps every other slice; any other argument blackens every slice and keeps the pixels beyond `width*height` |

## Left out

- `showAbout` and the `IJ.showMessage` dialog are GUI output. "about" is modelled only by its `Done` answer.
- `image.updateAndDraw()` is a display side effect and is not modelled.
- `main` starts ImageJ, sets system properties and opens an image from the network. It is not part of this model.
- ImageJ's `ImagePlus`, `ImageStack.getProcessor`, `getPixels` and `ColorProcessor` are library code. Slice `i` of the stack is `stack[i-1]`. `ip` is slice `current` of the stored image, as the host passes it.
- `PixelBuffers.FillRGB`: the `ColorProcessor` constructor throws when the array length differs from `width*height`. The model requires only `width*height <= length`, as for the grayscale routines. So its "the rest are kept" clause covers longer arrays that the real RGB path rejects.
- `PixelBuffers.Pack`: ImageJ's `setRGB` also sets the alpha byte of each word (`0xff000000`). The model packs only the 24 colour bits, so "black" means zero red, green and blue.
- `PixelBuffers.SetRGB`: for the same reason, each word it writes is the 24-bit packing; the real word also carries alpha `0xff`.
- `PixelBuffers.FillRGB`: "is 0" refers to the 24-bit packing; the real blackened word is `0xff000000`, opaque black.
- `Dispatch.Blackened`: for an `Ints` (RGB) slice, "black" means zero colour bits, i.e. word 0, following the 24-bit packing. The real program writes `0xff000000`. So `Blackened`, `IsBlack` and `Dispatch.BlackenedKeepsBlack` treat word 0 as already black, whereas the real program would leave opaque-black words unchanged and rewrite all-zero words.
- `PixelBuffers.FillGray32`: a float is modelled by its bit pattern, and +0.0 is the all-zero pattern. There is no float arithmetic in the plugin.
- `PixelBuffers.FillGray8`: `int` overflow of `width*height` is not modelled. The product is required to fit in an `int`, which excludes wrap-around. In the Java grayscale loops a wrapped bound that is negative or no larger than the array makes the loop write fewer pixels or none. A wrapped bound larger than the array makes it throw `ArrayIndexOutOfBoundsException` partway through. The product is also required to fit in the array, which is what keeps an unwrapped bound from throwing. ImageJ's pixel arrays hold exactly `width*height` elements, so none of this arises for a real processor. The same precondition is placed on `FillGray16` and `FillGray32`.
- `PixelBuffers.FillRGB`: takes the same precondition, but the real RGB path fails differently under overflow. A negative wrapped product makes `new byte[width*height]` throw `NegativeArraySizeException`, and any product other than the array length fails the `ColorProcessor` length check.
- A failed array cast (a slice whose element type does not match the tag) would throw `ClassCastException`. The model requires matching element types; ImageJ guarantees them.
- The `PlugInFilter` flag values (`DONE`, `DOES_8G`, and so on) are ImageJ constants. The flags are modelled as a set of capabilities, not as bits of an `int`.

=== FILE: dispatch.dfy ===
/**
  Type dispatch of the Fill_BLACK plugin: `process(ImageProcessor)` blackens
  one slice, `process(ImagePlus)` blackens every slice of the stack, both
  choosing the routine from the image's pixel-type tag and failing on a tag
  they do not handle.
 */
module Dispatch {
  import opened PixelBuffers

  /** The plugin's failures: a `RuntimeException` for an unhandled pixel
      type, and the `NullPointerException` of running with no stored image. */
  datatype Error = UnsupportedType(message: string) | NoImage

  datatype Result<T> = Success(value: T) | Failure(error: Error)

  /** Exception text of the whole-stack dispatch. */
  const StackMessage: string := "image type not supported"

  /** Exception text of the single-slice dispatch. */
  const ProcessorMessage: string := "not supported"

  /** `buf` has at least `count` elements and holds the zero of its element
      type at every index below `count`. */
  predicate IsBlack(buf: Buffer, count: nat) {
    match buf
    case Bytes(p) => count <= |p| && forall i :: 0 <= i < count ==> p[i] == 0
    case Shorts(p) => count <= |p| && forall i :: 0 <= i < count ==> p[i] == 0
    case Floats(p) => count <= |p| && forall i :: 0 <= i < count ==> p[i] == FloatZero
    case Ints(p) => count <= |p| && forall i :: 0 <= i < count ==> p[i] == 0
  }

  /** `after` is an array of the same kind and length as `before` and agrees
      with it at every index from `count` on. */
  predicate SameBeyond(before: Buffer, after: Buffer, count: nat) {
    match (before, after)
    case (Bytes(p), Bytes(q)) => |q| == |p| && forall i :: count <= i < |p| ==> q[i] == p[i]
    case (Shorts(p), Shorts(q)) => |q| == |p| && forall i :: count <= i < |p| ==> q[i] == p[i]
    case (Floats(p), Floats(q)) => |q| == |p| && forall i :: count <= i < |p| ==> q[i] == p[i]
    case (Ints(p), Ints(q)) => |q| == |p| && forall i :: count <= i < |p| ==> q[i] == p[i]
    case _ => false
  }

  /** Reference definition: the slice `buf` with its first `count` pixels
      set to black. */
  function Blackened(buf: Buffer, count: nat): (r: Buffer)
    requires count <= buf.Length()
    ensures IsBlack(r, count)
    ensures SameBeyond(buf, r, count)
  {
    match buf
    case Bytes(p) => Bytes(Zeroed(p, count, 0))
    case Shorts(p) => Shorts(Zeroed(p, count, 0))
    case Floats(p) => Floats(Zeroed(p, count, FloatZero))
    case Ints(p) => Ints(Zeroed(p, count, 0))
  }

  /** Blackening is pinned down by its two properties: a buffer that is black
      below `count` and unchanged from `count` on is `Blackened(buf, count)`. */
  lemma BlackenedUnique(buf: Buffer, count: nat, q: Buffer)
    requires count <= buf.Length()
    requires IsBlack(q, count) && SameBeyond(buf, q, count)
    ensures q == Blackened(buf, count)
  {
  }

  /** Blackening a slice twice is blackening it once. */
  lemma BlackenedIdempotent(buf: Buffer, count: nat)
    requires count <= buf.Length()
    ensures Blackened(Blackened(buf, count), count) == Blackened(buf, count)
  {
  }

  /** A slice that is already black below `count`, and so every slice when
      `count == 0`, is left exactly as it is. */
  lemma BlackenedKeepsBlack(buf: Buffer, count: nat)
    requires count <= buf.Length()
    requires IsBlack(buf, count)
    ensures Blackened(buf, count) == buf
  {
  }

  /** The routine for a supported type, applied to a slice of that type. */
  method FillSlice(t: PixelType, buf: Buffer, width: nat, height: nat) returns (out: Buffer)
    requires Supported(t) && BufferMatches(t, buf) && AreaFits(width, height, buf.Length())
    ensures BufferMatches(t, out)
    ensures IsBlack(out, width * height) && SameBeyond(buf, out, width * height)
    ensures out == Blackened(buf, width * height)
  {
    match t
    case Gray8 =>
      var p := FillGray8(buf.bytes, width, height);
      out := Bytes(p);
    case Gray16 =>
      var p := FillGray16(buf.shorts, width, height);
      out := Shorts(p);
    case Gray32 =>
      var p := FillGray32(buf.floats, width, height);
      out := Floats(p);
    case ColorRGB =>
      var p := FillRGB(buf.ints, width, height);
      out := Ints(p);
  }

  /** Slice numbers `1 .. n`, the order in which the stack is visited. */
  function SliceNumbers(n: nat): (s: seq<nat>)
    ensures |s| == n
    ensures forall k :: 0 <= k < n ==> s[k] == k + 1
  {
    seq(n, k => k + 1)
  }

  /** The visiting order names each slice `1 .. n` exactly once, in
      increasing order. */
  lemma SliceNumbersOnceEachInOrder(n: nat)
    ensures forall j, k :: 0 <= j < k < n ==> SliceNumbers(n)[j] < SliceNumbers(n)[k]
    ensures forall s :: 1 <= s <= n <==> s in SliceNumbers(n)
  {
    var order := SliceNumbers(n);
    forall s | 1 <= s <= n
      ensures s in order
    {
      assert order[s - 1] == s;
    }
  }

  /** `process(ImageProcessor)`: blacken the one slice `buf`, or fail before
      touching it when the type is not handled. */
  method ProcessSlice(t: PixelType, buf: Buffer, width: nat, height: nat) returns (r: Result<Buffer>)
    requires Supported(t) ==> BufferMatches(t, buf) && AreaFits(width, height, buf.Length())
    ensures r.Failure? <==> !Supported(t)
    ensures r.Failure? ==> r.error == UnsupportedType(ProcessorMessage)
    ensures r.Success? ==> IsBlack(r.value, width * height) && SameBeyond(buf, r.value, width * height)
    ensures r.Success? ==> r.value == Blackened(buf, width * height)
  {
    if !Supported(t) {
      return Failure(UnsupportedType(ProcessorMessage));
    }
    var out := FillSlice(t, buf, width, height);
    r := Success(out);
  }

  /** `process(ImagePlus)`: check the type once, then blacken slices
      `1 .. |stack|` in order. `visited` is the sequence of slice numbers the
      loop handled; it is empty when the type is rejected, since the check
      comes before any slice is written. */
  method ProcessStack(t: PixelType, stack: seq<Buffer>, width: nat, height: nat)
    returns (r: Result<seq<Buffer>>, visited: seq<nat>)
    requires Supported(t) ==>
      forall k :: 0 <= k < |stack| ==> BufferMatches(t, stack[k]) && AreaFits(width, height, stack[k].Length())
    ensures r.Failure? <==> !Supported(t)
    ensures r.Failure? ==> r.error == UnsupportedType(StackMessage) && visited == []
    ensures r.Success? ==> |r.value| == |stack|
    ensures r.Success? ==> forall k :: 0 <= k < |stack| ==>
      IsBlack(r.value[k], width * height) && SameBeyond(stack[k], r.value[k], width * height)
    ensures r.Success? ==> forall k :: 0 <= k < |stack| ==>
      AreaFits(width, height, stack[k].Length()) && r.value[k] == Blackened(stack[k], width * height)
    ensures r.Success? ==> visited == SliceNumbers(|stack|)
  {
    if !Supported(t) {
      return Failure(UnsupportedType(StackMessage)), [];
    }
    var slices := stack;
    visited := [];
    var i := 1;
    while i <= |stack|
      invariant 1 <= i <= |stack| + 1
      invariant |slices| == |stack|
      invariant forall k :: 0 <= k < i - 1 ==> slices[k] == Blackened(stack[k], width * height)
      invariant forall k :: i - 1 <= k < |stack| ==> slices[k] == stack[k]
      invariant visited == SliceNumbers(i - 1)
    {
      var out := FillSlice(t, slices[i - 1], width, height);
      slices := slices[i - 1 := out];
      visited := visited + [i];
      i := i + 1;
    }
    r := Success(slices);
  }
}

=== FILE: fill_black.dfy ===
/**
  The Fill_BLACK plugin filter itself: `setup` negotiates with the host
  (capability flags and slice mode), `run` blackens either the whole stack or
  the slice the host passes in.

  The plugin object's fields become a `Plugin` value: the slice mode and the
  stored image. The fields `width`, `height`, `type` and `nSlices`, which
  `run` fills in before dispatching, are read straight from the run's
  arguments and the stored image.
 */
module FillBlack {
  import opened PixelBuffers
  import opened Dispatch

  datatype Option<T> = None | Some(value: T)

  /** Whether `run` processes every slice of the stack or only the one it is
      given. */
  datatype Mode = AllSlices | CurrentSlice

  /** The pixel types a filter can declare it handles. */
  datatype Capability = Does8G | Does16 | Does32 | DoesRGB

  /** What `setup` answers: `Done` (do not run), or the set of pixel types
      the filter accepts. */
  datatype SetupOutcome = Done | Accepts(flags: set<Capability>)

  /** An image: its pixel-type tag and its slices; slice number `s` (counted
      from 1) is `stack[s - 1]`. */
  datatype Image = Image(pixelType: PixelType, stack: seq<Buffer>)

  /** The filter's state: slice mode and the image stored by `setup`. */
  datatype Plugin = Plugin(mode: Mode, image: Option<Image>)

  /** A newly constructed filter: all slices, no image yet. */
  const Fresh: Plugin := Plugin(AllSlices, None)

  const AboutArg: string := "about"
  const CurrentSliceArg: string := "CURRENT_SLICE"

  const AllCapabilities: set<Capability> := {Does8G, Does16, Does32, DoesRGB}

  /** `setup(arg, imp)`. With "about" the filter answers `Done` and keeps its
      state; with any other argument it stores `imp` and accepts all four
      pixel types. Only "CURRENT_SLICE" changes the mode, and it can only
      switch it to current-slice. */
  function Setup(p: Plugin, arg: string, imp: Option<Image>): (r: (Plugin, SetupOutcome))
    ensures arg == AboutArg ==> r.1 == Done && r.0 == p
    ensures arg != AboutArg ==> r.1 == Accepts(AllCapabilities) && r.0.image == imp
    ensures arg == CurrentSliceArg ==> r.0.mode == CurrentSlice
    ensures r.0.mode != p.mode ==> arg == CurrentSliceArg
  {
    if arg == AboutArg then
      (p, Done)
    else
      var mode := if arg == CurrentSliceArg then CurrentSlice else p.mode;
      (Plugin(mode, imp), Accepts(AllCapabilities))
  }

  /** A filter that accepts declares every pixel type there is: 8-bit,
      16-bit and 32-bit grayscale and RGB colour. */
  lemma SetupAcceptsEveryType(p: Plugin, arg: string, imp: Option<Image>)
    requires arg != AboutArg
    ensures forall c: Capability :: c in Setup(p, arg, imp).1.flags
  {
    forall c: Capability
      ensures c in Setup(p, arg, imp).1.flags
    {
      match c
      case Does8G =>
      case Does16 =>
      case Does32 =>
      case DoesRGB =>
    }
  }

  /** On a fresh filter, `setup` selects current-slice mode exactly for the
      argument "CURRENT_SLICE"; "ALL_SLICES", the empty string and every
      other argument leave all-slices mode. */
  lemma SetupModeFromFresh(arg: string, imp: Option<Image>)
    ensures Setup(Fresh, arg, imp).0.mode == CurrentSlice <==> arg == CurrentSliceArg
    ensures Setup(Fresh, "ALL_SLICES", imp).0.mode == AllSlices
    ensures Setup(Fresh, "", imp).0.mode == AllSlices
  {
  }

  /** What the host guarantees when it calls `run(ip)` on a filter whose
      setup stored an image: `ip` is slice `current` of that image, and
      every array the dispatch casts has the expected element type and at
      least `width*height` elements (an `int` product). */
  predicate Runnable(p: Plugin, width: nat, height: nat, current: nat) {
    match p.image
    case None => true
    case Some(img) =>
      && 1 <= current <= |img.stack|
      && (Supported(img.pixelType) ==>
            match p.mode
            case AllSlices =>
              forall k :: 0 <= k < |img.stack| ==>
                BufferMatches(img.pixelType, img.stack[k]) && AreaFits(width, height, img.stack[k].Length())
            case CurrentSlice =>
              BufferMatches(img.pixelType, img.stack[current - 1])
              && AreaFits(width, height, img.stack[current - 1].Length()))
  }

  /** `run(ip)`, where `ip` is slice `current` of the stored image and is
      `width` by `height` pixels. In all-slices mode every slice is blackened
      up to `width*height`; in current-slice mode only slice `current` is,
      and every other slice is left as it was. An unhandled pixel type fails
      before anything is written; a filter with no stored image fails too. */
  method Run(p: Plugin, width: nat, height: nat, current: nat) returns (r: Result<Image>)
    requires Runnable(p, width, height, current)
    ensures p.image.None? ==> r == Failure(NoImage)
    ensures p.image.Some? ==> (r.Failure? <==> !Supported(p.image.value.pixelType))
    ensures p.image.Some? && r.Failure? ==>
      r.error == UnsupportedType(if p.mode == AllSlices then StackMessage else ProcessorMessage)
    ensures r.Success? ==>
      && p.image.Some?
      && r.value.pixelType == p.image.value.pixelType
      && |r.value.stack| == |p.image.value.stack|
    ensures r.Success? && p.mode == AllSlices ==>
      forall k :: 0 <= k < |r.value.stack| ==>
        IsBlack(r.value.stack[k], width * height)
        && SameBeyond(p.image.value.stack[k], r.value.stack[k], width * height)
    ensures r.Success? && p.mode == CurrentSlice ==>
      && 1 <= current <= |r.value.stack|
      && IsBlack(r.value.stack[current - 1], width * height)
      && SameBeyond(p.image.value.stack[current - 1], r.value.stack[current - 1], width * height)
    ensures r.Success? && p.mode == CurrentSlice ==>
      forall k :: 0 <= k < |r.value.stack| && k != current - 1 ==>
        r.value.stack[k] == p.image.value.stack[k]
  {
    if p.image.None? {
      return Failure(NoImage);
    }
    var img := p.image.value;
    match p.mode
    case AllSlices =>
      var res, _ := ProcessStack(img.pixelType, img.stack, width, height);
      if res.Failure? {
        return Failure(res.error);
      }
      r := Success(Image(img.pixelType, res.value));
    case CurrentSlice =>
      var res := ProcessSlice(img.pixelType, img.stack[current - 1], width, height);
      if res.Failure? {
        return Failure(res.error);
      }
      r := Success(Image(img.pixelType, img.stack[current - 1 := res.value]));
  }

  /** One invocation by the host on a fresh filter: `setup(arg, imp)`, then,
      unless setup answered `Done`, `run` on slice `current`. With "about"
      nothing is run and no pixel changes. Otherwise the run fails exactly
      when no image was given or its type is not handled; "CURRENT_SLICE"
      blackens slice `current` and keeps every other slice, and any other
      argument blackens every slice. */
  method Invoke(arg: string, imp: Option<Image>, width: nat, height: nat, current: nat)
    returns (outcome: SetupOutcome, ran: Option<Result<Image>>)
    requires Runnable(Setup(Fresh, arg, imp).0, width, height, current)
    ensures outcome == Done <==> arg == AboutArg
    ensures outcome == Done ==> ran == None
    ensures outcome != Done ==> ran.Some?
    ensures ran.Some? && imp.None? ==> ran.value == Failure(NoImage)
    ensures ran.Some? && imp.Some? ==> (ran.value.Failure? <==> !Supported(imp.value.pixelType))
    ensures ran.Some? && ran.value.Success? && arg != CurrentSliceArg ==>
      && imp.Some?
      && ran.value.value.pixelType == imp.value.pixelType
      && |ran.value.value.stack| == |imp.value.stack|
      && forall k :: 0 <= k < |imp.value.stack| ==>
           IsBlack(ran.value.value.stack[k], width * height)
           && SameBeyond(imp.value.stack[k], ran.value.value.stack[k], width * height)
    ensures ran.Some? && ran.value.Success? && arg == CurrentSliceArg ==>
      && imp.Some?
      && ran.value.value.pixelType == imp.value.pixelType
      && |ran.value.value.stack| == |imp.value.stack|
      && 1 <= current <= |imp.value.stack|
      && IsBlack(ran.value.value.stack[current - 1], width * height)
      && SameBeyond(imp.value.stack[current - 1], ran.value.value.stack[current - 1], width * height)
      && forall k :: 0 <= k < |imp.value.stack| && k != current - 1 ==>
           ran.value.value.stack[k] == imp.value.stack[k]
  {
    var (p, answer) := Setup(Fresh, arg, imp);
    outcome := answer;
    if outcome == Done {
      return outcome, None;
    }
    var r := Run(p, width, height, current);
    ran := Some(r);
  }
}

=== FILE: pixel_buffers.dfy ===
/**
  Pixel arrays of the four image types the Fill_BLACK plugin accepts, and the
  routines that overwrite a prefix of such an array with black.

  The plugin's `process(byte[])`, `process(short[])` and `process(float[])`
  overloads are one loop each, differing only in the zero they write; that loop
  is `ZeroFill` here, and the three overloads are thin instances of it. The
  `process(int[])` overload for packed RGB goes through three fresh channel
  planes and recombines them with `SetRGB`.
 */
module PixelBuffers {

  /** Largest Java `int`: the source computes `width*height` in `int`. */
  const IntMax: int := 0x7FFF_FFFF

  /** A Java `float`, kept as its IEEE 754 bit pattern: the plugin only ever
      stores the constant `0.0` and does no arithmetic on floats. */
  datatype Float32 = Float32(bits: bv32)

  /** `(float)0.0`, positive zero, whose bit pattern is all zeroes. */
  const FloatZero: Float32 := Float32(0)

  /** The pixel-type tag of an image. `Other` stands for every tag the
      plugin does not handle (8-bit indexed colour, for one). */
  datatype PixelType = Gray8 | Gray16 | Gray32 | ColorRGB | Other

  /** The pixel array of one slice, as the host hands it out. */
  datatype Buffer =
    | Bytes(bytes: seq<bv8>)
    | Shorts(shorts: seq<bv16>)
    | Floats(floats: seq<Float32>)
    | Ints(ints: seq<bv32>)
  {
    function Length(): nat {
      match this
      case Bytes(p) => |p|
      case Shorts(p) => |p|
      case Floats(p) => |p|
      case Ints(p) => |p|
    }
  }

  predicate Supported(t: PixelType) {
    !t.Other?
  }

  /** The array cast the source applies for type `t` succeeds on `buf`. */
  predicate BufferMatches(t: PixelType, buf: Buffer) {
    match t
    case Gray8 => buf.Bytes?
    case Gray16 => buf.Shorts?
    case Gray32 => buf.Floats?
    case ColorRGB => buf.Ints?
    case Other => false
  }

  /** The loop bound `width*height` is computed without `int` overflow and
      every index below it is inside an array of `len` elements. */
  predicate AreaFits(width: nat, height: nat, len: nat) {
    width * height <= IntMax && width * height <= len
  }

  /** Reference definition: `pixels` with its first `count` elements replaced
      by `zero`. */
  function Zeroed<T>(pixels: seq<T>, count: nat, zero: T): (r: seq<T>)
    requires count <= |pixels|
    ensures |r| == |pixels|
    ensures forall i :: 0 <= i < count ==> r[i] == zero
    ensures forall i :: count <= i < |pixels| ==> r[i] == pixels[i]
  {
    seq(count, _ => zero) + pixels[count..]
  }

  /** A zero-filled prefix is characterised by its elements alone: any array
      that is `zero` below `count` and agrees with `pixels` from `count` on is
      `Zeroed(pixels, count, zero)`. */
  lemma ZeroedUnique<T>(pixels: seq<T>, count: nat, zero: T, q: seq<T>)
    requires count <= |pixels|
    requires |q| == |pixels|
    requires forall i :: 0 <= i < count ==> q[i] == zero
    requires forall i :: count <= i < |pixels| ==> q[i] == pixels[i]
    ensures q == Zeroed(pixels, count, zero)
  {
  }

  /** Zero-filling twice is zero-filling once. */
  lemma ZeroedIdempotent<T>(pixels: seq<T>, count: nat, zero: T)
    requires count <= |pixels|
    ensures Zeroed(Zeroed(pixels, count, zero), count, zero) == Zeroed(pixels, count, zero)
  {
  }

  /** An array whose first `count` elements are already `zero` is left as it
      is; in particular an empty area (`count == 0`) changes nothing. */
  lemma ZeroedKeepsBlackPrefix<T>(pixels: seq<T>, count: nat, zero: T)
    requires count <= |pixels|
    requires forall i :: 0 <= i < count ==> pixels[i] == zero
    ensures Zeroed(pixels, count, zero) == pixels
  {
  }

  /** The loop shared by the grayscale overloads: write `zero` at every
      position `0 .. count-1`, in increasing order. */
  method ZeroFill<T>(pixels: seq<T>, count: nat, zero: T) returns (out: seq<T>)
    requires count <= |pixels|
    ensures |out| == |pixels|
    ensures forall i :: 0 <= i < count ==> out[i] == zero
    ensures forall i :: count <= i < |pixels| ==> out[i] == pixels[i]
    ensures out == Zeroed(pixels, count, zero)
  {
    out := pixels;
    var pos := 0;
    while pos < count
      invariant pos <= count
      invariant |out| == |pixels|
      invariant forall i :: 0 <= i < pos ==> out[i] == zero
      invariant forall i :: pos <= i < |pixels| ==> out[i] == pixels[i]
    {
      out := out[pos := zero];
      pos := pos + 1;
    }
    ZeroedUnique(pixels, count, zero, out);
  }

  /** GRAY8: every byte below `width*height` becomes 0, the rest is kept. */
  method FillGray8(pixels: seq<bv8>, width: nat, height: nat) returns (out: seq<bv8>)
    requires AreaFits(width, height, |pixels|)
    ensures |out| == |pixels|
    ensures forall i :: 0 <= i < width * height ==> out[i] == 0
    ensures forall i :: width * height <= i < |pixels| ==> out[i] == pixels[i]
    ensures out == Zeroed(pixels, width * height, 0)
  {
    out := ZeroFill(pixels, width * height, 0);
  }

  /** GRAY16: every short below `width*height` becomes 0, the rest is kept. */
  method FillGray16(pixels: seq<bv16>, width: nat, height: nat) returns (out: seq<bv16>)
    requires AreaFits(width, height, |pixels|)
    ensures |out| == |pixels|
    ensures forall i :: 0 <= i < width * height ==> out[i] == 0
    ensures forall i :: width * height <= i < |pixels| ==> out[i] == pixels[i]
    ensures out == Zeroed(pixels, width * height, 0)
  {
    out := ZeroFill(pixels, width * height, 0);
  }

  /** GRAY32: every float below `width*height` becomes +0.0, the rest is kept. */
  method FillGray32(pixels: seq<Float32>, width: nat, height: nat) returns (out: seq<Float32>)
    requires AreaFits(width, height, |pixels|)
    ensures |out| == |pixels|
    ensures forall i :: 0 <= i < width * height ==> out[i] == FloatZero
    ensures forall i :: width * height <= i < |pixels| ==> out[i] == pixels[i]
    ensures out == Zeroed(pixels, width * height, FloatZero)
  {
    out := ZeroFill(pixels, width * height, FloatZero);
  }

  /** Channel extraction from a packed colour word. */
  function Red(c: bv32): bv8 {
    ((c >> 16) & 0xFF) as bv8
  }

  function Green(c: bv32): bv8 {
    ((c >> 8) & 0xFF) as bv8
  }

  function Blue(c: bv32): bv8 {
    (c & 0xFF) as bv8
  }

  /** One packed RGB pixel, `(r<<16)|(g<<8)|b`: the three channels can be read
      back and nothing above bit 23 is set. */
  function Pack(r: bv8, g: bv8, b: bv8): (c: bv32)
    ensures Red(c) == r && Green(c) == g && Blue(c) == b
    ensures c < 0x100_0000
  {
    ((r as bv32) << 16) | ((g as bv32) << 8) | (b as bv32)
  }

  /** A packed pixel is black exactly when all three channels are zero. */
  lemma PackIsBlackIff(r: bv8, g: bv8, b: bv8)
    ensures Pack(r, g, b) == 0 <==> r == 0 && g == 0 && b == 0
  {
  }

  /** Every 24-bit colour word is the packing of its own channels. */
  lemma PackOfChannels(c: bv32)
    requires c < 0x100_0000
    ensures Pack(Red(c), Green(c), Blue(c)) == c
  {
  }

  /** The recombination step of the RGB routine: each of the first `|red|`
      words of `pixels` becomes the packing of the three channel values at the
      same position; later words are kept. Only the 24 colour bits are
      modelled: ImageJ's `setRGB` also sets the alpha byte of each word. */
  method SetRGB(pixels: seq<bv32>, red: seq<bv8>, green: seq<bv8>, blue: seq<bv8>)
    returns (out: seq<bv32>)
    requires |green| == |red| && |blue| == |red| && |red| <= |pixels|
    ensures |out| == |pixels|
    ensures forall i :: 0 <= i < |red| ==>
      Red(out[i]) == red[i] && Green(out[i]) == green[i] && Blue(out[i]) == blue[i]
    ensures forall i :: 0 <= i < |red| ==> out[i] == Pack(red[i], green[i], blue[i])
    ensures forall i :: |red| <= i < |pixels| ==> out[i] == pixels[i]
  {
    out := pixels;
    var pos := 0;
    while pos < |red|
      invariant pos <= |red|
      invariant |out| == |pixels|
      invariant forall i :: 0 <= i < pos ==> out[i] == Pack(red[i], green[i], blue[i])
      invariant forall i :: pos <= i < |pixels| ==> out[i] == pixels[i]
    {
      out := out[pos := Pack(red[pos], green[pos], blue[pos])];
      pos := pos + 1;
    }
  }

  /** COLOR_RGB: three fresh channel planes of `width*height` bytes each are
      zero-filled by the GRAY8 routine and packed back into `pixels`, so every
      word below `width*height` has zero red, green and blue (0 in the 24-bit
      packing modelled here) and the rest is kept. */
  method FillRGB(pixels: seq<bv32>, width: nat, height: nat) returns (out: seq<bv32>)
    requires AreaFits(width, height, |pixels|)
    ensures |out| == |pixels|
    ensures forall i :: 0 <= i < width * height ==>
      Red(out[i]) == 0 && Green(out[i]) == 0 && Blue(out[i]) == 0
    ensures forall i :: 0 <= i < width * height ==> out[i] == 0
    ensures forall i :: width * height <= i < |pixels| ==> out[i] == pixels[i]
    ensures out == Zeroed(pixels, width * height, 0)
  {
    var area := width * height;
    // a new Java byte array starts out all zero
    var red := seq(area, _ => 0 as bv8);
    var green := seq(area, _ => 0 as bv8);
    var blue := seq(area, _ => 0 as bv8);
    red := FillGray8(red, width, height);
    green := FillGray8(green, width, height);
    blue := FillGray8(blue, width, height);
    PackIsBlackIff(0, 0, 0);
    out := SetRGB(pixels, red, green, blue);
    ZeroedUnique(pixels, area, 0, out);
  }
}
